=== FILE: README.md ===
# Float bit fields and ASCII bit streams

A Dafny model of the two bit codecs the steganography tool is built on.

- **FloatBinary** (`stego/floatbits.py`) holds an IEEE 754 binary32 value as 32 booleans, most significant bit first. It splits them into a sign bit, an 8-bit biased exponent and a 23-bit fraction. It rebuilds a value from three such fields with the normalized formula (-1)^s · (2^23 + F)/2^23 · 2^(E − 127). A clone with some fields replaced is built by rebuilding the value and decomposing it again.
- **str_to_bits / bits_to_str** (`stego/strbits.py`) encode ASCII text as 8 bits per character, most significant bit first. The bits come either as one flat list or as one group per character. Decoding cuts the list into groups of 8.

The project has four modules:

- `Wrappers` (wrappers.dfy) holds `Option` and `Result`, the error path of every operation.
- `Binary` (binary.dfy) models the three numeral steps both files use: `bin(n)[2:]` as `Digits`, `.rjust(w, "0")` as `PadLeft`, and `int(s, 2)` as `Parse`. It relates them to `Value`, the meaning of a numeral.
- `FloatBits` (floatbits.py's model) covers the field algebra, the pattern as an unsigned integer, the exact reconstruction over `real`, an exact encoder for zero and normalized values, and the `FloatBinary` object.
- `StrBits` (strbits.py's model) covers the text codec.

Values are exact reals. For 8- and 23-bit fields, Python's double evaluation of the formula is exact: the significand has 24 bits and the exponent stays within −127..128. So the real the model computes is the float the source computes. Only the later narrowing to float32 differs, and that is left out (see below).

The exponent fields 0 and 255 are read with the normalized formula, as the code does. IEEE 754-2019 (section 3.4) reserves them for zero, subnormals, infinities and NaNs. `ReservedExponentsAsWritten` records what the formula gives there. The all-zero pattern reads as 2^-127, not 0. Exponent field 255 with a zero fraction reads as 2^128, not infinity.

`bits_to_str` does not reject a bit list whose length is not a multiple of 8. A trailing group of k < 8 bits is read as a k-bit number (`BitsToStr`, `TrailingGroup`).

## Model

| member | source | states |
|---|---|---|
| Binary.Parse | stego/floatbits.py:84-85 | `int(s, 2)` evaluated digit by digit equals the positional value of the numeral |
| Binary.Digits | stego/floatbits.py:37 | `bin(n)[2:]` is a non-empty numeral of value n: the single digit "0" for 0, and a numeral with a leading 1 for n > 0, so it has the fewest digits |
| Binary.PadLeft | stego/floatbits.py:38 | `rjust(w, "0")` reaches width w when the string is shorter, keeps the string as its suffix, and keeps the value of a numeral |
| Binary.Fixed | stego/strbits.py:7 | the zero-padded numeral of n has value n and exactly w digits whenever n < 2^w |
| Binary.ValueAppend | stego/floatbits.py:83-84 | the value of a concatenated numeral is the left part shifted past the right part plus the right part |
| Binary.FixedOfValue | stego/floatbits.py:37-39 | rendering a numeral's value at its own width gives the numeral back |
| FloatBits.BoolToStr | stego/floatbits.py:99-102 | bool_to_str_representation gives one digit per flag: '1' exactly where the flag is True, '0' elsewhere |
| FloatBits.StrToBools | stego/floatbits.py:39 | listing a numeral's digits as booleans keeps its length, is undone by bool_to_str_representation, and the booleans read as the same number |
| FloatBits.BoolsRoundTrip | stego/floatbits.py:39 | reading the digit string back as booleans (every digit other than '0' is True) gives the flags back |
| FloatBits.UnsignedFields | stego/floatbits.py:56-59 | sign, exponent and fraction read together as one 32-bit integer give sign·2^31 + E·2^23 + F |
| FloatBits.PatternFields | stego/floatbits.py:56-59 | the field extractors on an integer pattern recover the sign, exponent and fraction it was built from |
| FloatBits.FloatToBinary | stego/floatbits.py:38-39 | the padded, listed rendering of a 32-bit cast result has exactly 32 bits and reads back as the same integer |
| FloatBits.FloatToBinaryOfUnsigned | stego/floatbits.py:38-39 | every 32-bit sequence is the rendering of the integer it denotes |
| FloatBits.SplitBinary | stego/floatbits.py:53-59 | fails exactly when the length is not 32; otherwise the exponent has 8 bits, the fraction 23, and sign, exponent and fraction concatenate to the input |
| FloatBits.ReconstructFloatValue | stego/floatbits.py:76-87 | a fraction of the wrong length is reported before an exponent of the wrong length; success exactly when both are right, with value (-1)^s · (1 + F/2^23) · 2^(E−127) for every exponent field |
| FloatBits.NormalizedValue | stego/floatbits.py:83-87 | the value computed from the digit strings is (-1)^s · (1 + F/2^23) · 2^(E−127), with F and E the fields read as unsigned integers |
| FloatBits.FractionAsReal | stego/floatbits.py:83-84 | "1" followed by the fraction's digits, read as an integer and divided by 2^23, is the significand 1 + F/2^23, which lies in [1, 2) |
| FloatBits.ExponentAsInt | stego/floatbits.py:85 | the exponent digits read as an integer, less 127, are E − 127 |
| FloatBits.ScaleIsProduct | stego/floatbits.py:87 | scaling by 2^k, as the model computes it, equals multiplication by the power 2^k |
| FloatBits.SignedScale | stego/floatbits.py:86-87 | multiplying by sign_as_int (−1 or 1) and by 2^k is the scaling by 2^k, negated exactly when the sign bit is set |
| FloatBits.MagnitudeBracket | stego/floatbits.py:83-87 | the reconstructed magnitude lies in [2^(E−127), 2^(E−126)) for every exponent field, 0 and 255 included, so the significand is in [1, 2) |
| FloatBits.FormulaSign | stego/floatbits.py:86-87 | the value is never zero, it is negative exactly when the sign bit is set, and the opposite sign bit gives its negation |
| FloatBits.SignNegates | stego/floatbits.py:76-87 | flipping only the sign negates the reconstructed value; the magnitude is 1.F · 2^(E−127), which depends on exponent and fraction alone |
| FloatBits.ConcreteValues | stego/floatbits.py:83-87 | 0 01111111 0…0 rebuilds to 1.0, 1 10000000 0…0 to −2.0 and 0 10000000 0…0 to 2.0 |
| FloatBits.ReservedExponentsAsWritten | stego/floatbits.py:83-87 | the all-zero fields rebuild to 2^-127 (not 0) and exponent 11111111 with a zero fraction to 2^128 (not infinity) |
| FloatBits.FindExponent | stego/floatbits.py:113 | the exponent search finds a biased exponent in 1..254 whose binade holds the magnitude, or reports that none does |
| FloatBits.Binary32Pattern | stego/floatbits.py:113 | the float32 pattern of a rebuilt value: 0 for zero; for an accepted nonzero value, the sign bit is the value's sign and the exponent field is in 1..254 |
| FloatBits.BinadeUnique | stego/floatbits.py:113 | a magnitude lies in the binade of one exponent at most |
| FloatBits.Binary32PatternDecodes | stego/floatbits.py:113 | a nonzero value the encoder accepts has an exponent field in 1..254 and is exactly the normalized reading of the pattern returned |
| FloatBits.Binary32PatternEncodes | stego/floatbits.py:113 | the normalized reading of any fields with exponent in 1..254 is encoded back to exactly those fields |
| FloatBits.Binary32PatternReserved | stego/floatbits.py:113 | the reading of fields with exponent 0 or 255 has no normalized pattern |
| FloatBits.FromBitPattern | stego/floatbits.py:7-23 | the object built from a cast result is well formed, its 32 bits read back as the cast result, and its fields are that integer's sign, exponent and fraction |
| FloatBits.FromValue | stego/floatbits.py:7-23 | `FloatBinary(v)` for a value whose cast is modelled: zero gives the all-zero object; every object built is well formed, its sign bit is the value's sign, and a nonzero value gets an exponent field in 1..254 |
| FloatBits.FromBitPatternOfFields | stego/floatbits.py:11-23 | the object built from the integer of given fields holds exactly those fields |
| FloatBits.ReconstructValue | stego/floatbits.py:89-97 | reconstruct_float_value succeeds on every well-formed object and gives the normalized reading of its fields |
| FloatBits.FromValueKeepsValue | stego/floatbits.py:89-97 | a nonzero value built into an object is rebuilt exactly by reconstruct_float_value |
| FloatBits.ValueRoundTrip | stego/floatbits.py:7-23 | for an exponent field in 1..254, decomposing, rebuilding the value and decomposing again gives the identical object |
| FloatBits.AsBitStr | stego/floatbits.py:115-116 | as_bit_str has one '0'/'1' digit per bit and reads back as the bits |
| FloatBits.AsBitStrOfPattern | stego/floatbits.py:115-116 | the bit string of a decomposed cast result is the 32-digit numeral of that integer |
| FloatBits.ModifyClone | stego/floatbits.py:104-113 | each field comes from its override when one is given and from the object otherwise; the length errors come in the reconstruction's order; a clone is well formed and rebuilds to the value of the chosen fields |
| FloatBits.ModifyCloneFields | stego/floatbits.py:108-113 | with an exponent field in 1..254 the clone exists and holds exactly the chosen sign, exponent and fraction |
| FloatBits.ModifyCloneReserved | stego/floatbits.py:112-113 | with exponent field 0 or 255 the rebuilt value has no normalized pattern, and the model reports that |
| FloatBits.SignFlipClone | stego/floatbits.py:104-113 | a clone with only the sign flipped rebuilds to the negated value |
| StrBits.FirstNonAscii | stego/strbits.py:6 | the position the ASCII codec reports is the first character above 127, and there is none exactly when the text is ASCII |
| StrBits.DigitsToBits | stego/strbits.py:11 | reading every digit with `int` keeps the length and gives 1 exactly where the digit is '1' |
| StrBits.BitsToDigits | stego/strbits.py:17 | writing every bit with `str` gives a numeral of the same length whose digits read back as the bits |
| StrBits.ByteNumerals | stego/strbits.py:6-8 | every byte becomes an 8-digit numeral whose value is the character's code point |
| StrBits.StrToBits | stego/strbits.py:4-11 | succeeds exactly on ASCII text (else the ASCII codec's error at the first offending position); gives 8·\|s\| bits, and group i is the code point of character i |
| StrBits.StrToBitGroups | stego/strbits.py:9-10 | the as_list form fails in the same cases; otherwise it gives \|s\| groups of 8 bits, group i being the code point of character i |
| StrBits.NumeralBits | stego/strbits.py:10 | every numeral becomes a list of bits of the same length whose digits are the numeral |
| StrBits.GroupsFlatten | stego/strbits.py:9-11 | the groups of the as_list form concatenate to the flat form |
| StrBits.ConcatOctets | stego/strbits.py:11 | joining groups of eight gives 8 entries per group, and group i of the result is the i-th group |
| StrBits.DecodeGroup | stego/strbits.py:17 | one group of at most 8 bits decodes to the character whose code point is the group's value, below 256 |
| StrBits.BitsToStr | stego/strbits.py:14-19 | gives ceil(\|b\|/8) characters, one per group of 8 bits, the last group possibly shorter |
| StrBits.BitsToStrGroups | stego/strbits.py:16-17 | character i of the decoding has the code point of group i (a shorter last group read at its own width), always below 256 |
| StrBits.SameValueGroups | stego/strbits.py:17 | two bit groups of equal length with the same value are the same group, so reading a group loses nothing |
| StrBits.BitsToStrAppend | stego/strbits.py:14-19 | decoding distributes over a concatenation whose first part is a whole number of groups |
| StrBits.EncodeDecode | stego/strbits.py:4-19 | decoding the encoding of ASCII text gives the text back |
| StrBits.DecodeEncode | stego/strbits.py:4-19 | a list of whole groups, each below 128, is the encoding of its decoding |
| StrBits.EncodeLetterA | stego/strbits.py:4-11 | "A" encodes to 01000001 |
| StrBits.DecodeLetterA | stego/strbits.py:14-19 | 01000001 decodes to "A" |
| StrBits.TrailingGroup | stego/strbits.py:16-17 | a trailing group of 3 bits is read as a 3-bit number: 01000001 101 decodes to "A" and the character with code point 5 |

## Left out

- The reinterpretation cast `ctypes.c_uint.from_buffer(ctypes.c_float(num))` (stego/floatbits.py:37) is foreign memory access. Its output is a parameter: `FromBitPattern` takes the unsigned 32-bit integer.
- FloatBits.Binary32Pattern: for the cast of a value the code rebuilds (stego/floatbits.py:113), the model uses this encoder. It is exact for zero and for the normalized binary32 values and gives None elsewhere. There the narrowing rounds the value to the nearest float32, ties to even: a subnormal for exponent field 0, except 2^-126, the smallest normal value, when the fraction is all ones; infinity for exponent field 255. That rounding is not modelled.
- FloatBits.FromValue: gives None wherever `Binary32Pattern` does, that is for every value other than zero and the normalized binary32 values; there `FloatBinary(v)` (stego/floatbits.py:7-23) builds the object of the rounded cast.
- FloatBits.ModifyClone: for an exponent field of 0 or 255, the model returns `OutsideNormalRange` instead of the object the source builds from the rounded float32. The round-trip lemmas are therefore stated for exponent fields 1..254.
- FloatBits.ModifyCloneReserved: proves that `OutsideNormalRange`, where `modify_clone` (stego/floatbits.py:112-113) returns the object of the rounded float32, for the reason given under `FloatBits.ModifyClone`.
- The `float` conversion in the constructor (stego/floatbits.py:8) and the attribute `v` it stores are left out. Only the cast reads that value.
- FloatBits.ReconstructFloatValue: the model's sequences stand for the `Tuple[bool]` the signatures declare. A fraction passed as a list of 23 booleans passes the length checks (stego/floatbits.py:76-79) and then raises `TypeError` at the tuple concatenation on stego/floatbits.py:83; that error is not modelled, because a `seq<bool>` cannot tell a list from a tuple. `FloatBits.ModifyClone` inherits this through its fraction override (stego/floatbits.py:110-112).
- The `isinstance(sign, bool)` check (stego/floatbits.py:80-81) is vacuous for a Dafny `bool`.
- Python raises on `int("", 2)`. `Binary.Parse` returns 0 for the empty numeral instead, a case no caller reaches.
- StrBits.BitsToStr takes lists of 0/1 entries only. With other integers, `str` followed by `int(…, 2)` either raises or reads a multi-digit entry such as 10 as two digits. That is outside the model.
- stego/dummy_data_generator.py is random data generation and file output, so it is not part of this model.
- No fixed partition of the 23-bit fraction into segments exists in the code (only the comment at stego/floatbits.py:22 mentions one), so none is modelled.

=== FILE: binary.dfy ===
/** Binary digit strings, the common ground of both codecs.

    Both source files build their bit patterns the same way: `bin(n)[2:]`
    gives the shortest binary numeral of `n`, `.rjust(w, "0")` pads it on the
    left with zeros, and `int(s, 2)` reads a numeral back. This module models
    those three steps on strings over '0' and '1', and relates them to `Value`,
    the reference meaning of a numeral: the sum of 2^(|s|-1-i) over its '1'
    digits, most significant digit first.
 */
module Binary {

  /** 2^n */
  function Pow2(n: nat): (r: nat)
    ensures r >= 1
  {
    if n == 0 then 1 else 2 * Pow2(n - 1)
  }

  /** x * 2^n, by doubling n times: the shift that places a numeral left of
      n further digits. Kept recursive so that proofs about numerals stay in
      linear arithmetic. */
  function Shl(x: nat, n: nat): nat {
    if n == 0 then x else 2 * Shl(x, n - 1)
  }

  lemma {:induction false} ShlZero(n: nat)
    ensures Shl(0, n) == 0
  {
    if n > 0 {
      ShlZero(n - 1);
    }
  }

  lemma {:induction false} ShlAdd(x: nat, y: nat, n: nat)
    ensures Shl(x + y, n) == Shl(x, n) + Shl(y, n)
  {
    if n > 0 {
      ShlAdd(x, y, n - 1);
    }
  }

  lemma {:induction false} ShlPow2(m: nat, n: nat)
    ensures Shl(Pow2(m), n) == Pow2(m + n)
  {
    if n > 0 {
      ShlPow2(m, n - 1);
    }
  }

  lemma {:induction false} ShlIsProduct(x: nat, n: nat)
    ensures Shl(x, n) == x * Pow2(n)
  {
    if n > 0 {
      ShlIsProduct(x, n - 1);
      DoubleFactor(x, Pow2(n - 1));
    }
  }

  /** Doubling a product doubles its second factor */
  lemma DoubleFactor(x: int, p: int)
    ensures 2 * (x * p) == x * (2 * p)
  {
  }

  lemma {:induction false} Pow2Monotone(m: nat, n: nat)
    requires m <= n
    ensures Pow2(m) <= Pow2(n)
  {
    if m < n {
      Pow2Monotone(m, n - 1);
    }
  }

  /** A string of binary digits only */
  predicate IsDigitString(s: string) {
    forall i :: 0 <= i < |s| ==> s[i] == '0' || s[i] == '1'
  }

  /** The digit `int` reads from a numeral character: 1 for '1', else 0 */
  function DigitValue(c: char): (r: nat)
    ensures r <= 1
  {
    if c == '1' then 1 else 0
  }

  /** The number a numeral denotes, read most significant digit first */
  function Value(s: string): (r: nat)
    ensures r < Pow2(|s|)
  {
    if |s| == 0 then 0 else (if s[0] == '1' then Pow2(|s| - 1) else 0) + Value(s[1..])
  }

  /** Reading a concatenation: the left part is shifted past the right one */
  lemma {:induction false} ValueAppend(a: string, b: string)
    ensures Value(a + b) == Shl(Value(a), |b|) + Value(b)
  {
    if |a| == 0 {
      assert a + b == b;
      ShlZero(|b|);
    } else {
      var ab := a + b;
      assert ab[0] == a[0] && ab[1..] == a[1..] + b;
      ValueAppend(a[1..], b);
      var high := if a[0] == '1' then Pow2(|a| - 1) else 0;
      assert Value(a) == high + Value(a[1..]);
      assert Value(ab) == Shl(high, |b|) + Value(ab[1..]) by {
        ShlPow2(|a| - 1, |b|);
        ShlZero(|b|);
      }
      ShlAdd(high, Value(a[1..]), |b|);
    }
  }

  /** Appending one digit doubles the value and adds the digit */
  lemma AppendDigit(s: string, c: char)
    ensures Value(s + [c]) == 2 * Value(s) + DigitValue(c)
  {
    ValueAppend(s, [c]);
  }

  /** Leading zeros do not change the number a numeral denotes */
  lemma ValueLeadingZeros(n: nat, s: string)
    ensures Value(seq(n, _ => '0') + s) == Value(s)
  {
    var z: string := seq(n, _ => '0');
    assert Value(z) == 0 by { ZerosValue(n); }
    ValueAppend(z, s);
    ShlZero(|s|);
  }

  lemma {:induction false} ZerosValue(n: nat)
    ensures Value(seq(n, _ => '0')) == 0
  {
    if n > 0 {
      var z: string := seq(n, _ => '0');
      assert z[1..] == seq(n - 1, _ => '0');
      ZerosValue(n - 1);
    }
  }

  /** `int(s, 2)`, evaluated Horner-style from the last digit. Python raises
      on the empty string; every caller in the codecs passes a non-empty one. */
  function Parse(s: string): (r: nat)
    requires IsDigitString(s)
    ensures r == Value(s)
  {
    if |s| == 0 then 0
    else
      var init := s[..|s| - 1];
      var last := s[|s| - 1];
      assert Value(s) == 2 * Value(init) + DigitValue(last) by {
        assert s == init + [last];
        AppendDigit(init, last);
      }
      2 * Parse(init) + DigitValue(last)
  }

  /** `bin(n)[2:]`: the shortest numeral of n (a single "0" for zero) */
  function Digits(n: nat): (r: string)
    ensures IsDigitString(r) && 1 <= |r|
    ensures Value(r) == n
    ensures n == 0 ==> r == "0"
    ensures n > 0 ==> r[0] == '1' && Pow2(|r| - 1) <= n
  {
    if n < 2 then
      [if n == 0 then '0' else '1']
    else
      var high := Digits(n / 2);
      var low: string := [if n % 2 == 0 then '0' else '1'];
      assert Value(high + low) == n by {
        AppendDigit(high, low[0]);
      }
      high + low
  }

  /** A number below 2^w needs at most w digits */
  lemma DigitsFit(n: nat, w: nat)
    requires 0 < w && n < Pow2(w)
    ensures |Digits(n)| <= w
  {
    if n > 0 && |Digits(n)| - 1 >= w {
      Pow2Monotone(w, |Digits(n)| - 1);
    }
  }

  /** `s.rjust(width, "0")` */
  function PadLeft(s: string, width: nat): (r: string)
    ensures |s| < width ==> |r| == width
    ensures |s| >= width ==> r == s
    ensures r[|r| - |s|..] == s
    ensures IsDigitString(s) ==> IsDigitString(r) && Value(r) == Value(s)
  {
    if |s| >= width then s
    else
      assert Value(seq(width - |s|, _ => '0') + s) == Value(s) by {
        ValueLeadingZeros(width - |s|, s);
      }
      seq(width - |s|, _ => '0') + s
  }

  /** The shortest numeral of n, zero-padded on the left to width digits */
  function Fixed(n: nat, width: nat): (r: string)
    ensures IsDigitString(r) && Value(r) == n
    ensures 0 < width && n < Pow2(width) ==> |r| == width
  {
    assert 0 < width && n < Pow2(width) ==> |Digits(n)| <= width by {
      if 0 < width && n < Pow2(width) {
        DigitsFit(n, width);
      }
    }
    PadLeft(Digits(n), width)
  }

  /** Numerals of equal length denote equal numbers only when they are equal */
  lemma {:induction false} ValueInjective(s: string, t: string)
    requires IsDigitString(s) && IsDigitString(t)
    requires |s| == |t| && Value(s) == Value(t)
    ensures s == t
  {
    if |s| > 0 {
      var p := Pow2(|s| - 1);
      assert s[0] == t[0];
      ValueInjective(s[1..], t[1..]);
      assert s == [s[0]] + s[1..] && t == [t[0]] + t[1..];
    }
  }

  /** Fixed is the only numeral of its width with its value: rendering the
      value of a numeral at the numeral's own width gives it back */
  lemma FixedOfValue(s: string)
    requires IsDigitString(s) && 0 < |s|
    ensures Fixed(Value(s), |s|) == s
  {
    ValueInjective(Fixed(Value(s), |s|), s);
  }
}

=== FILE: floatbits.dfy ===
/** The field algebra of one IEEE 754 binary32 value (stego/floatbits.py).

    A 32-bit pattern, most significant bit first, is split into a sign bit,
    an 8-bit biased exponent and a 23-bit fraction. Reconstruction applies the
    normalized formula (-1)^s * 1.F * 2^(E - 127) to every field value,
    including the exponent fields 0 and 255 that section 3.4 of IEEE 754-2019
    reserves for subnormals, infinities and NaNs.

    The program obtains a value's pattern with a `ctypes` reinterpretation
    cast. Here the cast's output is taken as given (`FromBitPattern`), and the
    cast of a value the program rebuilds is modelled by an exact arithmetic
    encoder (`Binary32Pattern`) that is defined for zero and for the
    normalized binary32 values.
 */
module FloatBits {
  import opened Wrappers
  import opened Binary

  /** The unsigned integer a 32-bit reinterpretation cast yields */
  type uint32 = u: nat | u < 0x1_0000_0000

  datatype FloatError =
    | Need32Bits          // split_binary: the pattern is not 32 bits long
    | FractionNot23Bits   // reconstruction: the fraction is not 23 bits long
    | ExponentNot8Bits    // reconstruction: the exponent is not 8 bits long
    | OutsideNormalRange  // the rebuilt value is not zero or a normalized binary32 value

  const Bias: int := 127
  /** 2^23: the weight of the implicit leading significand bit, and of the
      lowest exponent bit within a pattern */
  const FractionScale: nat := 0x80_0000
  /** 2^31: the weight of the sign bit within a pattern */
  const SignScale: nat := 0x8000_0000

  /** The powers of two the layout uses, as literals */
  lemma Pow2Constants()
    ensures Pow2(8) == 256 && Pow2(23) == FractionScale && Pow2(31) == SignScale
    ensures Pow2(32) == 0x1_0000_0000
  {
    assert Pow2(4) == 16;
    assert Pow2(8) == 256;
    assert Pow2(12) == 4096;
    assert Pow2(16) == 65536;
    assert Pow2(20) == 0x10_0000;
    assert Pow2(23) == 0x80_0000;
    assert Pow2(27) == 0x800_0000;
    assert Pow2(31) == 0x8000_0000;
  }

  // ---------------------------------------------------------------------
  // Bits as booleans and as digit strings
  // ---------------------------------------------------------------------

  /** bool_to_str_representation: True renders as '1', False as '0' */
  function BoolToStr(vals: seq<bool>): (r: string)
    ensures |r| == |vals| && IsDigitString(r)
    ensures forall i :: 0 <= i < |vals| ==> (r[i] == '1') == vals[i]
  {
    seq(|vals|, i requires 0 <= i < |vals| => if vals[i] then '1' else '0')
  }

  /** The digit-to-bit step of float_to_binary: every digit other than '0'
      becomes True */
  function StrToBools(s: string): (r: seq<bool>)
    ensures |r| == |s|
    ensures IsDigitString(s) ==> BoolToStr(r) == s && Unsigned(r) == Value(s)
  {
    seq(|s|, i requires 0 <= i < |s| => s[i] != '0')
  }

  lemma BoolsRoundTrip(b: seq<bool>)
    ensures StrToBools(BoolToStr(b)) == b
  {
  }

  lemma BoolToStrAppend(a: seq<bool>, b: seq<bool>)
    ensures BoolToStr(a + b) == BoolToStr(a) + BoolToStr(b)
  {
  }

  /** A bit field read as an unsigned integer, most significant bit first */
  function Unsigned(bits: seq<bool>): (r: nat)
    ensures r < Pow2(|bits|)
  {
    Value(BoolToStr(bits))
  }

  lemma UnsignedAppend(a: seq<bool>, b: seq<bool>)
    ensures Unsigned(a + b) == Shl(Unsigned(a), |b|) + Unsigned(b)
  {
    BoolToStrAppend(a, b);
    ValueAppend(BoolToStr(a), BoolToStr(b));
  }

  // ---------------------------------------------------------------------
  // Patterns as integers
  // ---------------------------------------------------------------------

  function SignOf(u: nat): bool {
    u >= SignScale
  }

  function ExponentOf(u: nat): nat {
    (u / FractionScale) % 256
  }

  function FractionOf(u: nat): nat {
    u % FractionScale
  }

  /** The pattern holding the given field values */
  function PatternOf(sign: bool, e: nat, f: nat): nat {
    (if sign then SignScale else 0) + e * FractionScale + f
  }

  /** The three field extractors recover what PatternOf assembled, and the
      assembled pattern fits in 32 bits */
  lemma PatternFields(sign: bool, e: nat, f: nat)
    requires e < 256 && f < FractionScale
    ensures PatternOf(sign, e, f) < 0x1_0000_0000
    ensures SignOf(PatternOf(sign, e, f)) == sign
    ensures ExponentOf(PatternOf(sign, e, f)) == e
    ensures FractionOf(PatternOf(sign, e, f)) == f
  {
    var u := PatternOf(sign, e, f);
    var s: nat := if sign then 1 else 0;
    assert u == (s * 256 + e) * FractionScale + f;
    assert u / FractionScale == s * 256 + e;
  }

  /** A 32-bit field sequence read as one integer is the pattern of its fields */
  lemma UnsignedFields(sign: bool, exponent: seq<bool>, fraction: seq<bool>)
    requires |exponent| == 8 && |fraction| == 23
    ensures Unsigned([sign] + exponent + fraction)
         == PatternOf(sign, Unsigned(exponent), Unsigned(fraction))
  {
    var s: nat := if sign then 1 else 0;
    assert Unsigned([sign]) == s;
    UnsignedAppend([sign], exponent);
    UnsignedAppend([sign] + exponent, fraction);
    ShlIsProduct(s, 8);
    ShlIsProduct(Shl(s, 8) + Unsigned(exponent), 23);
    Pow2Constants();
  }

  // ---------------------------------------------------------------------
  // float_to_binary and split_binary
  // ---------------------------------------------------------------------

  /** The padding and listing part of float_to_binary: the cast's output,
      written as its zero-padded 32-digit binary numeral, digit by digit as
      booleans */
  function FloatToBinary(u: uint32): (r: seq<bool>)
    ensures |r| == 32 && Unsigned(r) == u
  {
    var digits := Fixed(u, 32);
    assert |digits| == 32 by {
      Pow2Constants();
    }
    StrToBools(digits)
  }

  /** Every 32-bit sequence is the rendering of the integer it denotes */
  lemma FloatToBinaryOfUnsigned(b: seq<bool>)
    requires |b| == 32
    ensures Unsigned(b) < 0x1_0000_0000
    ensures FloatToBinary(Unsigned(b)) == b
  {
    Pow2Constants();
    var digits := BoolToStr(b);
    FixedOfValue(digits);
    BoolsRoundTrip(b);
  }

  datatype Fields = Fields(sign: bool, exponent: seq<bool>, fraction: seq<bool>)

  /** split_binary: bit 0 is the sign, bits 1..8 the exponent, bits 9..31 the
      fraction; any other length than 32 is refused */
  function SplitBinary(binaryFloat: seq<bool>): (r: Result<Fields, FloatError>)
    ensures r.Failure? <==> |binaryFloat| != 32
    ensures r.Failure? ==> r.error == Need32Bits
    ensures r.Success? ==>
      && |r.value.exponent| == 8
      && |r.value.fraction| == 23
      && [r.value.sign] + r.value.exponent + r.value.fraction == binaryFloat
  {
    if |binaryFloat| != 32 then Failure(Need32Bits)
    else
      var sign := binaryFloat[0];
      var exponent := binaryFloat[1..9];
      var fraction := binaryFloat[9..32];
      assert [sign] + exponent + fraction == binaryFloat;
      Success(Fields(sign, exponent, fraction))
  }

  // ---------------------------------------------------------------------
  // Reconstruction
  // ---------------------------------------------------------------------

  /** x * 2^k, exactly, by doubling x k times or halving it -k times. Kept
      recursive so that proofs about it stay in linear arithmetic. */
  function Scale(x: real, k: int): real
    decreases if k < 0 then -k else k
  {
    if k == 0 then x
    else if k > 0 then Scale(2.0 * x, k - 1)
    else Scale(x / 2.0, k + 1)
  }

  /** 2^k for an integer k */
  function Pow2Real(k: int): real {
    Scale(1.0, k)
  }

  lemma {:induction false} ScaleDouble(x: real, k: int)
    ensures Scale(2.0 * x, k) == 2.0 * Scale(x, k)
    decreases if k < 0 then -k else k
  {
    if k > 0 {
      ScaleDouble(2.0 * x, k - 1);
    } else if k < 0 {
      assert 2.0 * x / 2.0 == x;
      ScaleDouble(x / 2.0, k + 1);
      assert 2.0 * (x / 2.0) == x;
    }
  }

  lemma ScaleStep(x: real, k: int)
    ensures Scale(x, k + 1) == 2.0 * Scale(x, k)
  {
    if k >= 0 {
      ScaleDouble(x, k);
    } else {
      ScaleDouble(x / 2.0, k + 1);
      assert 2.0 * (x / 2.0) == x;
    }
  }

  /** Scaling by a power of two preserves order, strictly */
  lemma {:induction false} ScaleMonotone(x: real, y: real, k: int)
    requires x < y
    ensures Scale(x, k) < Scale(y, k)
    decreases if k < 0 then -k else k
  {
    if k > 0 {
      ScaleMonotone(2.0 * x, 2.0 * y, k - 1);
    } else if k < 0 {
      ScaleMonotone(x / 2.0, y / 2.0, k + 1);
    }
  }

  /** Scaling by 2^-k undoes scaling by 2^k */
  lemma {:induction false} ScaleInverse(x: real, k: int)
    ensures Scale(Scale(x, k), -k) == x
    decreases if k < 0 then -k else k
  {
    if k > 0 {
      // Scale(x, k) == Scale(2x, k - 1); one halving step, then the claim for k - 1
      var y := Scale(2.0 * x, k - 1);
      ScaleInverse(2.0 * x, k - 1);
      assert Scale(y, -k) == Scale(y / 2.0, -k + 1);
      ScaleDouble(y / 2.0, -(k - 1));
      assert 2.0 * (y / 2.0) == y;
    } else if k < 0 {
      var y := Scale(x / 2.0, k + 1);
      ScaleInverse(x / 2.0, k + 1);
      assert Scale(y, -k) == Scale(2.0 * y, -k - 1);
      ScaleDouble(y, -(k + 1));
    }
  }

  /** The doubling definition agrees with multiplication by 2^k */
  lemma {:induction false} ScaleIsProduct(x: real, k: int)
    ensures Scale(x, k) == x * Pow2Real(k)
    decreases if k < 0 then -k else k
  {
    if k > 0 {
      ScaleIsProduct(2.0 * x, k - 1);
      ScaleDouble(1.0, k - 1);
      ProductShift(x, Pow2Real(k - 1), 2.0);
    } else if k < 0 {
      ScaleIsProduct(x / 2.0, k + 1);
      assert Pow2Real(k) == Scale(0.5, k + 1);
      assert Scale(0.5, k + 1) == Pow2Real(k + 1) / 2.0 by {
        ScaleDouble(0.5, k + 1);
      }
      ProductShift(x, Pow2Real(k + 1), 0.5);
    }
  }

  lemma ProductShift(x: real, p: real, c: real)
    ensures (c * x) * p == x * (c * p)
    ensures (x / 2.0) * p == x * (p / 2.0)
  {
  }

  lemma Pow2RealStep(k: int)
    ensures Pow2Real(k + 1) == 2.0 * Pow2Real(k)
  {
    ScaleStep(1.0, k);
  }

  lemma {:induction false} Pow2RealMonotone(a: int, b: int)
    requires a <= b
    ensures Pow2Real(a) <= Pow2Real(b)
    decreases b - a
  {
    if a < b {
      Pow2RealMonotone(a, b - 1);
      Pow2RealStep(b - 1);
      ScalePositive(1.0, b - 1);
    }
  }

  lemma {:induction false} ScalePositive(x: real, k: int)
    requires x > 0.0
    ensures Scale(x, k) > 0.0
    decreases if k < 0 then -k else k
  {
    if k > 0 {
      ScalePositive(2.0 * x, k - 1);
    } else if k < 0 {
      ScalePositive(x / 2.0, k + 1);
    }
  }

  /** The significand 1.F: the fraction behind an implicit leading one */
  function Significand(f: nat): real {
    1.0 + f as real / (FractionScale as real)
  }

  /** (-1)^sign * 1.F * 2^(E - 127): the normalized reading of the fields */
  function Formula(sign: bool, e: nat, f: nat): real {
    var magnitude := Scale(Significand(f), e - Bias);
    if sign then -magnitude else magnitude
  }

  function Abs(x: real): real {
    if x < 0.0 then -x else x
  }

  /** _reconstruct_float_value. The fraction length is checked before the
      exponent length; the value is the normalized formula whatever the
      exponent field holds. */
  function ReconstructFloatValue(sign: bool, exponent: seq<bool>, fraction: seq<bool>)
    : (r: Result<real, FloatError>)
    ensures |fraction| != 23 ==> r == Failure(FractionNot23Bits)
    ensures |fraction| == 23 && |exponent| != 8 ==> r == Failure(ExponentNot8Bits)
    ensures r.Success? <==> |fraction| == 23 && |exponent| == 8
    ensures r.Success? ==> r.value == Formula(sign, Unsigned(exponent), Unsigned(fraction))
  {
    if |fraction| != 23 then Failure(FractionNot23Bits)
    else if |exponent| != 8 then Failure(ExponentNot8Bits)
    else Success(NormalizedValue(sign, exponent, fraction))
  }

  /** The computation of _reconstruct_float_value once the lengths are
      checked: the sign factor times the significand times a power of two */
  function NormalizedValue(sign: bool, exponent: seq<bool>, fraction: seq<bool>): (r: real)
    requires |fraction| == 23
    ensures r == Formula(sign, Unsigned(exponent), Unsigned(fraction))
  {
    // The sign factor times the significand times 2 to the unbiased exponent:
    // a factor of -1 negates, and a power of two scales exactly
    var magnitude := Scale(FractionAsReal(fraction), ExponentAsInt(exponent));
    if sign then -magnitude else magnitude
  }

  /** The product the source forms, a sign factor of -1 or 1 times the
      significand times a power of two, is the signed scaling the model
      computes */
  lemma SignedScale(sign: bool, a: real, k: int)
    ensures (if sign then -1.0 else 1.0) * a * Pow2Real(k) == if sign then -Scale(a, k) else Scale(a, k)
  {
    ScaleIsProduct(a, k);
  }

  /** fraction_as_int: the fraction behind an implicit leading one, read as
      an integer and divided by 2^23 */
  function FractionAsReal(fraction: seq<bool>): (r: real)
    requires |fraction| == 23
    ensures r == Significand(Unsigned(fraction))
    ensures 1.0 <= r < 2.0
  {
    var fractionDigits := BoolToStr([true] + fraction);
    LeadingOne(fraction);
    SignificandOfSum(Parse(fractionDigits), Unsigned(fraction));
    assert Unsigned(fraction) < FractionScale by {
      Pow2Constants();
    }
    Parse(fractionDigits) as real / (FractionScale as real)
  }

  /** exponent_as_int: the exponent field read as an integer, less the bias */
  function ExponentAsInt(exponent: seq<bool>): (r: int)
    ensures r == Unsigned(exponent) - Bias
  {
    Parse(BoolToStr(exponent)) - Bias
  }

  /** The implicit leading one: "1" followed by the fraction's digits reads as
      2^23 + F */
  lemma LeadingOne(fraction: seq<bool>)
    requires |fraction| == 23
    ensures Value(BoolToStr([true] + fraction)) == FractionScale + Unsigned(fraction)
  {
    var digits := BoolToStr([true] + fraction);
    BoolToStrAppend([true], fraction);
    assert digits[1..] == BoolToStr(fraction);
    Pow2Constants();
  }

  /** (2^23 + F) / 2^23 is the significand 1.F */
  lemma SignificandOfSum(v: nat, f: nat)
    requires v == FractionScale + f
    ensures v as real / (FractionScale as real) == Significand(f)
  {
  }

  /** The magnitude of the normalized reading lies in the binade
      [2^(E-127), 2^(E-126)), for every exponent field: none is treated
      specially */
  lemma MagnitudeBracket(sign: bool, e: nat, f: nat)
    requires f < FractionScale
    ensures Pow2Real(e - Bias) <= Abs(Formula(sign, e, f)) < Pow2Real(e - Bias + 1)
  {
    var k := e - Bias;
    var sig := Significand(f);
    if sig > 1.0 {
      ScaleMonotone(1.0, sig, k);
    }
    ScaleMonotone(sig, 2.0, k);
    ScaleDouble(1.0, k);
    Pow2RealStep(k);
    ScalePositive(1.0, k);
  }

  /** The normalized reading is never zero, and its sign is the sign bit */
  lemma FormulaSign(sign: bool, e: nat, f: nat)
    ensures Formula(!sign, e, f) == -Formula(sign, e, f)
    ensures Abs(Formula(sign, e, f)) == Scale(Significand(f), e - Bias) > 0.0
    ensures Formula(sign, e, f) < 0.0 <==> sign
  {
    ScalePositive(Significand(f), e - Bias);
  }

  /** Flipping the sign negates the value; the magnitude depends on the
      exponent and the fraction alone */
  lemma SignNegates(sign: bool, exponent: seq<bool>, fraction: seq<bool>)
    requires |exponent| == 8 && |fraction| == 23
    ensures ReconstructFloatValue(!sign, exponent, fraction).value
         == -ReconstructFloatValue(sign, exponent, fraction).value
    ensures Abs(ReconstructFloatValue(sign, exponent, fraction).value)
         == Scale(Significand(Unsigned(fraction)), Unsigned(exponent) - Bias)
  {
    FormulaSign(sign, Unsigned(exponent), Unsigned(fraction));
  }

  /** Concrete readings: 0 01111111 000...0 is 1.0, 1 10000000 000...0 is -2.0
      and 0 10000000 000...0 is 2.0 */
  lemma ConcreteValues()
    ensures ReconstructFloatValue(false, OneExponent(), Zeros(23)) == Success(1.0)
    ensures ReconstructFloatValue(true, TwoExponent(), Zeros(23)) == Success(-2.0)
    ensures ReconstructFloatValue(false, TwoExponent(), Zeros(23)) == Success(2.0)
  {
    ConcreteFields();
    assert Significand(0) == 1.0;
    assert Formula(false, 127, 0) == 1.0;
    assert Scale(1.0, 1) == 2.0;
    assert Formula(true, 128, 0) == -2.0;
    assert Formula(false, 128, 0) == 2.0;
  }

  lemma ConcreteFields()
    ensures Unsigned(Zeros(23)) == 0
    ensures Unsigned(OneExponent()) == 127
    ensures Unsigned(TwoExponent()) == 128
  {
    ZerosUnsigned(23);
    OneExponentValue();
    TwoExponentValue();
  }

  lemma OneExponentValue()
    ensures Unsigned(OneExponent()) == 127
  {
    assert BoolToStr(OneExponent()) == "01111111";
  }

  lemma TwoExponentValue()
    ensures Unsigned(TwoExponent()) == 128
  {
    assert BoolToStr(TwoExponent()) == "10000000";
  }

  function Zeros(n: nat): (r: seq<bool>)
    ensures |r| == n
  {
    seq(n, _ => false)
  }

  lemma ZerosUnsigned(n: nat)
    ensures Unsigned(Zeros(n)) == 0
  {
    assert BoolToStr(Zeros(n)) == seq(n, _ => '0');
    ZerosValue(n);
  }

  /** The exponent field 01111111 (127, the bias) */
  function OneExponent(): seq<bool> {
    [false, true, true, true, true, true, true, true]
  }

  /** The exponent field 10000000 (128) */
  function TwoExponent(): seq<bool> {
    [true, false, false, false, false, false, false, false]
  }

  /** The normalized formula applied to the fields IEEE 754 reserves: an
      all-zero pattern reads as 2^-127 where IEEE 754 has +0.0, and the
      exponent field 11111111 with a zero fraction reads as 2^128 where IEEE
      754 has infinity */
  lemma ReservedExponentsAsWritten()
    ensures ReconstructFloatValue(false, Zeros(8), Zeros(23)) == Success(Pow2Real(-127))
    ensures Pow2Real(-127) > 0.0
    ensures ReconstructFloatValue(false, Ones(8), Zeros(23)) == Success(Pow2Real(128))
  {
    ZerosUnsigned(23);
    ZerosUnsigned(8);
    OnesValue();
    ScalePositive(1.0, -127);
  }

  lemma OnesValue()
    ensures Unsigned(Ones(8)) == 255
  {
    assert BoolToStr(Ones(8)) == "11111111";
  }

  function Ones(n: nat): (r: seq<bool>)
    ensures |r| == n
  {
    seq(n, _ => true)
  }

  // ---------------------------------------------------------------------
  // The cast of a rebuilt value, for zero and normalized values
  // ---------------------------------------------------------------------

  /** m lies in the binade of the biased exponent e */
  predicate InBinade(m: real, e: int) {
    Pow2Real(e - Bias) <= m < Pow2Real(e - Bias + 1)
  }

  /** The first biased exponent in [e, 254] whose binade holds m */
  function FindExponent(m: real, e: nat): (r: Option<nat>)
    requires 1 <= e <= 255
    ensures r.Some? ==> e <= r.value <= 254 && InBinade(m, r.value)
    ensures r.None? ==> forall k :: e <= k <= 254 ==> !InBinade(m, k)
    decreases 255 - e
  {
    if e == 255 then None
    else if InBinade(m, e) then Some(e)
    else FindExponent(m, e + 1)
  }

  /** The binades of different exponents are disjoint */
  lemma BinadeUnique(m: real, e: int, k: int)
    requires InBinade(m, e) && InBinade(m, k)
    ensures e == k
  {
    if e < k {
      Pow2RealMonotone(e - Bias + 1, k - Bias);
    } else if k < e {
      Pow2RealMonotone(k - Bias + 1, e - Bias);
    }
  }

  /** Scaling a value of the binade of e by 2^(127 - e) lands in [1, 2) */
  lemma SignificandOfBinade(m: real, e: int)
    requires InBinade(m, e)
    ensures 1.0 <= Scale(m, Bias - e) < 2.0
  {
    var k := e - Bias;
    assert -k == Bias - e;
    ScaleInverse(1.0, k);
    if Pow2Real(k) < m {
      ScaleMonotone(Pow2Real(k), m, -k);
    }
    ScaleMonotone(m, Pow2Real(k + 1), -k);
    Pow2RealStep(k);
    ScaleDouble(Pow2Real(k), -k);
  }

  /** The binary32 pattern of x, when x is zero or a normalized binary32
      value; None for every other real */
  function Binary32Pattern(x: real): (r: Option<uint32>)
    ensures x == 0.0 ==> r == Some(0)
    ensures r.Some? ==> SignOf(r.value) == (x < 0.0)
    ensures r.Some? && x != 0.0 ==> 1 <= ExponentOf(r.value) <= 254
  {
    if x == 0.0 then Some(0)
    else
      var m := Abs(x);
      match FindExponent(m, 1)
      case None => None
      case Some(e) =>
        var t := Scale(m, Bias - e);
        var q := (t - 1.0) * (FractionScale as real);
        if q.Floor as real != q then None
        else
          SignificandOfBinade(m, e);
          PatternFields(x < 0.0, e, q.Floor);
          Some(PatternOf(x < 0.0, e, q.Floor))
  }

  /** Whatever nonzero value the encoder accepts is exactly the normalized
      reading of the pattern it returns */
  lemma Binary32PatternDecodes(x: real)
    requires x != 0.0 && Binary32Pattern(x).Some?
    ensures 1 <= ExponentOf(Binary32Pattern(x).value) <= 254
    ensures var u := Binary32Pattern(x).value;
      x == Formula(SignOf(u), ExponentOf(u), FractionOf(u))
  {
    var m := Abs(x);
    var e := FindExponent(m, 1).value;
    var t := Scale(m, Bias - e);
    var q := (t - 1.0) * (FractionScale as real);
    var f := q.Floor;
    SignificandOfBinade(m, e);
    PatternFields(x < 0.0, e, f);
    assert Significand(f) == t;
    ScaleInverse(m, Bias - e);
    assert -(Bias - e) == e - Bias;
  }

  /** Every normalized reading of fields with an exponent in 1..254 is
      encoded back to exactly those fields */
  lemma Binary32PatternEncodes(sign: bool, e: nat, f: nat)
    requires 1 <= e <= 254 && f < FractionScale
    ensures Binary32Pattern(Formula(sign, e, f)) == Some(PatternOf(sign, e, f))
  {
    var x := Formula(sign, e, f);
    var k := e - Bias;
    var sig := Significand(f);
    FormulaSign(sign, e, f);
    MagnitudeBracket(sign, e, f);
    FindExponentOf(Abs(x), e);
    ScaleInverse(sig, k);
    assert -k == Bias - e;
    assert Scale(Abs(x), Bias - e) == sig;
  }

  /** The search finds the exponent whose binade holds m */
  lemma FindExponentOf(m: real, e: nat)
    requires 1 <= e <= 254 && InBinade(m, e)
    ensures FindExponent(m, 1) == Some(e)
  {
    var found := FindExponent(m, 1);
    assert found.Some?;
    BinadeUnique(m, found.value, e);
  }

  /** A nonzero normalized reading with exponent field 0 or 255 has no
      normalized binary32 pattern */
  lemma Binary32PatternReserved(sign: bool, e: nat, f: nat)
    requires (e == 0 || e == 255) && f < FractionScale
    ensures Binary32Pattern(Formula(sign, e, f)) == None
  {
    var x := Formula(sign, e, f);
    var m := Abs(x);
    MagnitudeBracket(sign, e, f);
    ScalePositive(1.0, e - Bias);
    var found := FindExponent(m, 1);
    if found.Some? {
      BinadeUnique(m, found.value, e);
    }
  }

  // ---------------------------------------------------------------------
  // FloatBinary
  // ---------------------------------------------------------------------

  /** A FloatBinary: the 32 bits of a value and their three fields */
  datatype FloatBinary = FloatBinary(bin: seq<bool>, sign: bool, exponent: seq<bool>, fraction: seq<bool>)

  /** The fields have their widths and are the split of the bits */
  predicate WellFormed(fb: FloatBinary) {
    |fb.exponent| == 8 && |fb.fraction| == 23 && fb.bin == [fb.sign] + fb.exponent + fb.fraction
  }

  /** FloatBinary.__init__ from the cast's output: the bits of the pattern
      and their split */
  function FromBitPattern(u: uint32): (fb: FloatBinary)
    ensures WellFormed(fb) && Unsigned(fb.bin) == u
    ensures fb.sign == SignOf(u)
    ensures Unsigned(fb.exponent) == ExponentOf(u)
    ensures Unsigned(fb.fraction) == FractionOf(u)
  {
    var bin := FloatToBinary(u);
    var parts := SplitBinary(bin).value;
    UnsignedFields(parts.sign, parts.exponent, parts.fraction);
    Pow2Constants();
    PatternFields(parts.sign, Unsigned(parts.exponent), Unsigned(parts.fraction));
    FloatBinary(bin, parts.sign, parts.exponent, parts.fraction)
  }

  /** The well-formed FloatBinary holding given fields is the one built from
      the pattern of those fields */
  lemma FromBitPatternOfFields(sign: bool, exponent: seq<bool>, fraction: seq<bool>)
    requires |exponent| == 8 && |fraction| == 23
    ensures Unsigned([sign] + exponent + fraction) < 0x1_0000_0000
    ensures var fb := FromBitPattern(Unsigned([sign] + exponent + fraction));
      fb.sign == sign && fb.exponent == exponent && fb.fraction == fraction
  {
    var b := [sign] + exponent + fraction;
    FloatToBinaryOfUnsigned(b);
    var fb := FromBitPattern(Unsigned(b));
    assert fb.bin == b;
    assert fb.sign == b[0];
    assert fb.exponent == fb.bin[1..9] && exponent == b[1..9];
    assert fb.fraction == fb.bin[9..32] && fraction == b[9..32];
  }

  /** FloatBinary(v) for a value whose cast is modelled: zero or a normalized
      binary32 value */
  function FromValue(x: real): (r: Option<FloatBinary>)
    ensures x == 0.0 ==> r == Some(FromBitPattern(0))
    ensures r.Some? ==> WellFormed(r.value) && r.value.sign == (x < 0.0)
    ensures r.Some? && x != 0.0 ==> 1 <= Unsigned(r.value.exponent) <= 254
  {
    match Binary32Pattern(x)
    case None => None
    case Some(u) => Some(FromBitPattern(u))
  }

  /** reconstruct_float_value: the normalized reading of the object's fields */
  function ReconstructValue(fb: FloatBinary): (r: Result<real, FloatError>)
    ensures WellFormed(fb) ==> r.Success?
    ensures r.Success? ==> r.value == Formula(fb.sign, Unsigned(fb.exponent), Unsigned(fb.fraction))
  {
    ReconstructFloatValue(fb.sign, fb.exponent, fb.fraction)
  }

  /** A nonzero value built into a FloatBinary is rebuilt exactly */
  lemma FromValueKeepsValue(x: real)
    requires x != 0.0
    ensures FromValue(x).Some? ==> ReconstructValue(FromValue(x).value) == Success(x)
  {
    if FromValue(x).Some? {
      Binary32PatternDecodes(x);
    }
  }

  /** Decomposing a pattern whose exponent field is in 1..254, rebuilding its
      value and decomposing that value again gives the same object */
  lemma ValueRoundTrip(u: uint32)
    requires 1 <= ExponentOf(u) <= 254
    ensures ReconstructValue(FromBitPattern(u)).Success?
    ensures FromValue(ReconstructValue(FromBitPattern(u)).value) == Some(FromBitPattern(u))
  {
    var fb := FromBitPattern(u);
    Binary32PatternEncodes(SignOf(u), ExponentOf(u), FractionOf(u));
    assert u == PatternOf(SignOf(u), ExponentOf(u), FractionOf(u)) by {
      UnsignedFields(fb.sign, fb.exponent, fb.fraction);
    }
  }

  /** as_bit_str: the 32 bits as a string of '0' and '1' */
  function AsBitStr(fb: FloatBinary): (r: string)
    ensures |r| == |fb.bin| && IsDigitString(r)
    ensures StrToBools(r) == fb.bin
  {
    BoolsRoundTrip(fb.bin);
    BoolToStr(fb.bin)
  }

  /** The bit string of a decomposed pattern is its 32-digit numeral */
  lemma AsBitStrOfPattern(u: uint32)
    ensures AsBitStr(FromBitPattern(u)) == Fixed(u, 32)
    ensures Parse(AsBitStr(FromBitPattern(u))) == u
  {
    var digits := Fixed(u, 32);
    assert |digits| == 32 by {
      Pow2Constants();
    }
    assert FloatToBinary(u) == StrToBools(digits);
  }

  /** modify_clone: every field comes from its override when one is given and
      from fb otherwise; the fields are rebuilt into a value and that value
      is decomposed again */
  function ModifyClone(fb: FloatBinary, sign: Option<bool>, exponent: Option<seq<bool>>,
                       fraction: Option<seq<bool>>): (r: Result<FloatBinary, FloatError>)
    ensures |fraction.GetOr(fb.fraction)| != 23 ==> r == Failure(FractionNot23Bits)
    ensures |fraction.GetOr(fb.fraction)| == 23 && |exponent.GetOr(fb.exponent)| != 8 ==>
      r == Failure(ExponentNot8Bits)
    ensures r.Success? ==> WellFormed(r.value)
    ensures r.Success? ==>
      ReconstructValue(r.value)
      == ReconstructFloatValue(sign.GetOr(fb.sign), exponent.GetOr(fb.exponent), fraction.GetOr(fb.fraction))
  {
    var s := sign.GetOr(fb.sign);
    var e := exponent.GetOr(fb.exponent);
    var f := fraction.GetOr(fb.fraction);
    var v :- ReconstructFloatValue(s, e, f);
    match FromValue(v)
    case None => Failure(OutsideNormalRange)
    case Some(clone) =>
      FormulaSign(s, Unsigned(e), Unsigned(f));
      FromValueKeepsValue(v);
      Success(clone)
  }

  /** With an exponent field in 1..254 the clone carries exactly the chosen
      fields */
  lemma ModifyCloneFields(fb: FloatBinary, sign: Option<bool>, exponent: Option<seq<bool>>,
                          fraction: Option<seq<bool>>)
    requires |exponent.GetOr(fb.exponent)| == 8 && |fraction.GetOr(fb.fraction)| == 23
    requires 1 <= Unsigned(exponent.GetOr(fb.exponent)) <= 254
    ensures ModifyClone(fb, sign, exponent, fraction).Success?
    ensures var clone := ModifyClone(fb, sign, exponent, fraction).value;
      && clone.sign == sign.GetOr(fb.sign)
      && clone.exponent == exponent.GetOr(fb.exponent)
      && clone.fraction == fraction.GetOr(fb.fraction)
  {
    var s := sign.GetOr(fb.sign);
    var e := exponent.GetOr(fb.exponent);
    var f := fraction.GetOr(fb.fraction);
    assert ReconstructFloatValue(s, e, f) == Success(Formula(s, Unsigned(e), Unsigned(f)));
    FromValueOfFields(s, e, f);
  }

  /** The normalized reading of fields with an exponent in 1..254 decomposes
      back into exactly those fields */
  lemma FromValueOfFields(s: bool, e: seq<bool>, f: seq<bool>)
    requires |e| == 8 && |f| == 23 && 1 <= Unsigned(e) <= 254
    ensures var c := FromValue(Formula(s, Unsigned(e), Unsigned(f)));
      c.Some? && c.value.sign == s && c.value.exponent == e && c.value.fraction == f
  {
    assert Unsigned(f) < FractionScale by {
      Pow2Constants();
    }
    Binary32PatternEncodes(s, Unsigned(e), Unsigned(f));
    UnsignedFields(s, e, f);
    FromBitPatternOfFields(s, e, f);
  }

  /** With exponent field 0 or 255 the rebuilt value is no normalized binary32
      value, and the model reports that instead of a clone */
  lemma ModifyCloneReserved(fb: FloatBinary, sign: Option<bool>, exponent: Option<seq<bool>>,
                            fraction: Option<seq<bool>>)
    requires |exponent.GetOr(fb.exponent)| == 8 && |fraction.GetOr(fb.fraction)| == 23
    requires Unsigned(exponent.GetOr(fb.exponent)) == 0 || Unsigned(exponent.GetOr(fb.exponent)) == 255
    ensures ModifyClone(fb, sign, exponent, fraction) == Failure(OutsideNormalRange)
  {
    var f := fraction.GetOr(fb.fraction);
    assert Unsigned(f) < FractionScale by {
      Pow2Constants();
    }
    Binary32PatternReserved(sign.GetOr(fb.sign), Unsigned(exponent.GetOr(fb.exponent)), Unsigned(f));
  }

  /** Cloning with only the sign flipped negates the value */
  lemma SignFlipClone(fb: FloatBinary)
    requires WellFormed(fb) && 1 <= Unsigned(fb.exponent) <= 254
    ensures ModifyClone(fb, Some(!fb.sign), None, None).Success?
    ensures ReconstructValue(ModifyClone(fb, Some(!fb.sign), None, None).value).value
         == -ReconstructValue(fb).value
  {
    ModifyCloneFields(fb, Some(!fb.sign), None, None);
    SignNegates(fb.sign, fb.exponent, fb.fraction);
  }
}

=== FILE: strbits.dfy ===
/** The ASCII text <-> bit-stream codec of stego/strbits.py.

    `str_to_bits` encodes a string with the ASCII codec and writes every byte
    as its 8-digit binary numeral, most significant bit first; the result is
    one flat list of bits, or with `as_list` one 8-bit list per character.
    `bits_to_str` cuts a bit list into groups of 8 (the last one may be
    shorter), reads every group as a binary number and turns it into the
    character with that code point.
 */
module StrBits {
  import opened Wrappers
  import opened Binary

  /** An entry of a bit list: 0 or 1 */
  type Bit = b: int | 0 <= b <= 1

  /** The ASCII codec rejects the character at `position` */
  datatype EncodeError = NotAscii(position: nat)

  predicate IsAscii(c: char) {
    c as int < 128
  }

  predicate AllAscii(s: string) {
    forall i :: 0 <= i < |s| ==> IsAscii(s[i])
  }

  /** The position the ASCII codec reports: its first non-ASCII character */
  function FirstNonAscii(s: string): (r: Option<nat>)
    ensures r.None? <==> AllAscii(s)
    ensures r.Some? ==> r.value < |s| && !IsAscii(s[r.value]) && AllAscii(s[..r.value])
  {
    if |s| == 0 then None
    else if !IsAscii(s[0]) then Some(0)
    else
      match FirstNonAscii(s[1..])
      case None =>
        assert forall i :: 1 <= i < |s| ==> s[i] == s[1..][i - 1];
        None
      case Some(p) =>
        assert s[..p + 1] == [s[0]] + s[1..][..p];
        Some(p + 1)
  }

  // ---------------------------------------------------------------------
  // Digits and bits
  // ---------------------------------------------------------------------

  /** `str(b)` for a bit */
  function BitToDigit(b: Bit): char {
    if b == 1 then '1' else '0'
  }

  /** A digit string as a bit list: every '1' becomes 1, every '0' becomes 0 */
  function DigitsToBits(s: string): (r: seq<Bit>)
    ensures |r| == |s|
    ensures forall i :: 0 <= i < |s| ==> (r[i] == 1) == (s[i] == '1')
  {
    seq(|s|, i requires 0 <= i < |s| => DigitValue(s[i]))
  }

  /** A bit list written as a digit string, one digit per bit */
  function BitsToDigits(b: seq<Bit>): (r: string)
    ensures |r| == |b| && IsDigitString(r)
    ensures DigitsToBits(r) == b
  {
    seq(|b|, i requires 0 <= i < |b| => BitToDigit(b[i]))
  }

  lemma DigitsBitsRoundTrip(s: string)
    requires IsDigitString(s)
    ensures BitsToDigits(DigitsToBits(s)) == s
  {
  }

  lemma BitsDigitsRoundTrip(b: seq<Bit>)
    ensures DigitsToBits(BitsToDigits(b)) == b
  {
  }

  lemma DigitsToBitsAppend(s: string, t: string)
    ensures DigitsToBits(s + t) == DigitsToBits(s) + DigitsToBits(t)
  {
  }

  /** The number a bit list denotes, most significant bit first */
  function BitsValue(b: seq<Bit>): nat {
    Value(BitsToDigits(b))
  }

  // ---------------------------------------------------------------------
  // Groups of eight
  // ---------------------------------------------------------------------

  function Min(a: int, b: int): int {
    if a <= b then a else b
  }

  /** The i-th group of eight entries, shorter at the end of the list */
  function Group<T>(b: seq<T>, i: nat): (r: seq<T>)
    requires 8 * i <= |b|
    ensures |r| <= 8
  {
    b[8 * i..Min(8 * i + 8, |b|)]
  }

  /** The concatenation of a list of lists, as `"".join` does for strings */
  function Concat<T>(groups: seq<seq<T>>): seq<T> {
    if |groups| == 0 then [] else groups[0] + Concat(groups[1..])
  }

  /** Every group has exactly 8 entries */
  predicate Octets<T>(groups: seq<seq<T>>) {
    forall i :: 0 <= i < |groups| ==> |groups[i]| == 8
  }

  /** Concatenating groups of eight: group i of the result is the i-th group */
  lemma {:induction false} ConcatOctets<T>(groups: seq<seq<T>>)
    requires Octets(groups)
    ensures |Concat(groups)| == 8 * |groups|
    ensures forall i :: 0 <= i < |groups| ==> Group(Concat(groups), i) == groups[i]
  {
    if |groups| > 0 {
      var rest := groups[1..];
      ConcatOctets(rest);
      var flat := Concat(groups);
      assert flat == groups[0] + Concat(rest);
      forall i | 0 <= i < |groups|
        ensures Group(flat, i) == groups[i]
      {
        if i > 0 {
          assert Group(flat, i) == Group(Concat(rest), i - 1);
        }
      }
    }
  }

  /** Two lists of the same length, a multiple of 8, with the same groups
      are equal */
  lemma OctetsEqual<T>(a: seq<T>, b: seq<T>, n: nat)
    requires |a| == |b| == 8 * n
    requires forall i :: 0 <= i < n ==> Group(a, i) == Group(b, i)
    ensures a == b
  {
    forall k | 0 <= k < |a|
      ensures a[k] == b[k]
    {
      var i := k / 8;
      assert Group(a, i)[k - 8 * i] == a[k];
      assert Group(b, i)[k - 8 * i] == b[k];
    }
  }

  lemma {:induction false} DigitsToBitsConcat(groups: seq<string>)
    ensures DigitsToBits(Concat(groups))
         == Concat(seq(|groups|, i requires 0 <= i < |groups| => DigitsToBits(groups[i])))
  {
    var mapped := seq(|groups|, i requires 0 <= i < |groups| => DigitsToBits(groups[i]));
    if |groups| > 0 {
      DigitsToBitsConcat(groups[1..]);
      DigitsToBitsAppend(groups[0], Concat(groups[1..]));
      assert mapped[1..] == seq(|groups| - 1, i requires 0 <= i < |groups| - 1 => DigitsToBits(groups[1..][i]));
    }
  }

  // ---------------------------------------------------------------------
  // str_to_bits
  // ---------------------------------------------------------------------

  /** The 8-digit zero-padded binary numeral of each byte of an ASCII string */
  function ByteNumerals(s: string): (r: seq<string>)
    requires AllAscii(s)
    ensures |r| == |s| && Octets(r)
    ensures forall i :: 0 <= i < |s| ==> IsDigitString(r[i]) && Value(r[i]) == s[i] as int
  {
    assert Pow2(8) == 256;
    seq(|s|, i requires 0 <= i < |s| => Fixed(s[i] as int, 8))
  }

  /** str_to_bits(s): 8 bits per character, the code point of character i in
      bits 8i..8i+7; the ASCII codec's error for any other character */
  function StrToBits(s: string): (r: Result<seq<Bit>, EncodeError>)
    ensures r.Success? <==> AllAscii(s)
    ensures r.Failure? ==> r.error == NotAscii(FirstNonAscii(s).value)
    ensures r.Success? ==> |r.value| == 8 * |s|
    ensures r.Success? ==> forall i :: 0 <= i < |s| ==> BitsValue(Group(r.value, i)) == s[i] as int
  {
    match FirstNonAscii(s)
    case Some(p) => Failure(NotAscii(p))
    case None =>
      EncodedGroups(s);
      Success(DigitsToBits(Concat(ByteNumerals(s))))
  }

  lemma DigitsToBitsSlice(s: string, lo: nat, hi: nat)
    requires lo <= hi <= |s|
    ensures DigitsToBits(s)[lo..hi] == DigitsToBits(s[lo..hi])
  {
  }

  /** Group i of the flat encoding is the numeral of character i, as bits */
  lemma EncodedGroups(s: string)
    requires AllAscii(s)
    ensures |DigitsToBits(Concat(ByteNumerals(s)))| == 8 * |s|
    ensures var bits := DigitsToBits(Concat(ByteNumerals(s)));
      forall i :: 0 <= i < |s| ==> BitsValue(Group(bits, i)) == s[i] as int
  {
    var numerals := ByteNumerals(s);
    var flat := Concat(numerals);
    var bits := DigitsToBits(flat);
    ConcatOctets(numerals);
    forall i | 0 <= i < |s|
      ensures BitsValue(Group(bits, i)) == s[i] as int
    {
      DigitsToBitsSlice(flat, 8 * i, 8 * i + 8);
      assert Group(bits, i) == DigitsToBits(numerals[i]);
      DigitsBitsRoundTrip(numerals[i]);
    }
  }

  /** str_to_bits(s, as_list=True): one list of 8 bits per character */
  function StrToBitGroups(s: string): (r: Result<seq<seq<Bit>>, EncodeError>)
    ensures r.Success? <==> AllAscii(s)
    ensures r.Failure? ==> r.error == NotAscii(FirstNonAscii(s).value)
    ensures r.Success? ==> |r.value| == |s| && Octets(r.value)
    ensures r.Success? ==> forall i :: 0 <= i < |s| ==> BitsValue(r.value[i]) == s[i] as int
  {
    match FirstNonAscii(s)
    case Some(p) => Failure(NotAscii(p))
    case None =>
      Success(NumeralBits(ByteNumerals(s)))
  }

  /** The list form of str_to_bits: every numeral becomes its own list of
      bits, digit by digit */
  function NumeralBits(numerals: seq<string>): (r: seq<seq<Bit>>)
    requires forall i :: 0 <= i < |numerals| ==> IsDigitString(numerals[i])
    ensures |r| == |numerals|
    ensures forall i :: 0 <= i < |r| ==> |r[i]| == |numerals[i]| && BitsToDigits(r[i]) == numerals[i]
  {
    assert forall i :: 0 <= i < |numerals| ==> BitsToDigits(DigitsToBits(numerals[i])) == numerals[i] by {
      forall i | 0 <= i < |numerals| {
        DigitsBitsRoundTrip(numerals[i]);
      }
    }
    seq(|numerals|, i requires 0 <= i < |numerals| => DigitsToBits(numerals[i]))
  }

  /** The groups of the list form concatenate to the flat form */
  lemma GroupsFlatten(s: string)
    requires AllAscii(s)
    ensures Concat(StrToBitGroups(s).value) == StrToBits(s).value
  {
    DigitsToBitsConcat(ByteNumerals(s));
  }

  // ---------------------------------------------------------------------
  // bits_to_str
  // ---------------------------------------------------------------------

  /** One step of bits_to_str: a group of at most 8 bits is written out as
      digits, read as a binary number, and that number is the code point of
      the character */
  function DecodeGroup(g: seq<Bit>): (c: char)
    requires |g| <= 8
    ensures c as int == BitsValue(g) < 256
  {
    assert Pow2(8) == 256;
    Pow2Monotone(|g|, 8);
    var code := Parse(BitsToDigits(g));
    code as char
  }

  /** bits_to_str(b): one character per group of 8 bits; a shorter last group
      is read as a number of its own width */
  function BitsToStr(b: seq<Bit>): (r: string)
    ensures |r| == (|b| + 7) / 8
    decreases |b|
  {
    if |b| == 0 then ""
    else
      var n := Min(8, |b|);
      [DecodeGroup(b[..n])] + BitsToStr(b[n..])
  }

  /** Character i of the decoding has the code point of group i, below 256 */
  lemma {:induction false} BitsToStrGroups(b: seq<Bit>)
    ensures forall i :: 0 <= i < |BitsToStr(b)| ==> BitsToStr(b)[i] as int == BitsValue(Group(b, i)) < 256
    decreases |b|
  {
    if |b| > 0 {
      var n := Min(8, |b|);
      var rest := BitsToStr(b[n..]);
      BitsToStrGroups(b[n..]);
      var r := BitsToStr(b);
      assert r == [DecodeGroup(b[..n])] + rest;
      forall i | 0 <= i < |r|
        ensures r[i] as int == BitsValue(Group(b, i)) < 256
      {
        if i == 0 {
          assert Group(b, 0) == b[..n];
        } else {
          assert r[i] == rest[i - 1];
          assert n == 8 && 8 * i <= |b|;
          GroupAfterFirst(b, i);
        }
      }
    }
  }

  /** Group i of a list is group i - 1 of the list past its first group */
  lemma GroupAfterFirst<T>(b: seq<T>, i: nat)
    requires 1 <= i && 8 * i <= |b|
    ensures Group(b[8..], i - 1) == Group(b, i)
  {
    var tail := b[8..];
    var lo := 8 * (i - 1);
    var hi := if 8 * i + 8 <= |b| then lo + 8 else |tail|;
    assert Group(tail, i - 1) == tail[lo..hi];
    assert Group(b, i) == b[lo + 8..hi + 8];
    forall k | 0 <= k < hi - lo
      ensures tail[lo..hi][k] == b[lo + 8..hi + 8][k]
    {
      assert tail[lo + k] == b[lo + k + 8];
    }
  }

  /** Decoding distributes over a concatenation whose first part is a whole
      number of groups */
  lemma BitsToStrAppend(a: seq<Bit>, b: seq<Bit>)
    requires |a| % 8 == 0
    ensures BitsToStr(a + b) == BitsToStr(a) + BitsToStr(b)
  {
    WholeGroupsAppend(a, b, |a| / 8);
  }

  lemma {:induction false} WholeGroupsAppend(a: seq<Bit>, b: seq<Bit>, n: nat)
    requires |a| == 8 * n
    ensures BitsToStr(a + b) == BitsToStr(a) + BitsToStr(b)
  {
    if n == 0 {
      assert a + b == b;
    } else {
      var head, tail := a[..8], a[8..];
      assert a == head + tail;
      assert a + b == head + (tail + b);
      var c := DecodeGroup(head);
      calc {
        BitsToStr(a + b);
        { DecodeFirstGroup(head, tail + b); }
        [c] + BitsToStr(tail + b);
        { WholeGroupsAppend(tail, b, n - 1); }
        [c] + (BitsToStr(tail) + BitsToStr(b));
        ([c] + BitsToStr(tail)) + BitsToStr(b);
        { DecodeFirstGroup(head, tail); }
        BitsToStr(a) + BitsToStr(b);
      }
    }
  }

  /** A leading whole group decodes to the first character on its own */
  lemma DecodeFirstGroup(g: seq<Bit>, rest: seq<Bit>)
    requires |g| == 8
    ensures BitsToStr(g + rest) == [DecodeGroup(g)] + BitsToStr(rest)
  {
    assert (g + rest)[..8] == g;
    assert (g + rest)[8..] == rest;
  }

  /** Decoding the encoding of an ASCII string gives the string back */
  lemma EncodeDecode(s: string)
    requires AllAscii(s)
    ensures BitsToStr(StrToBits(s).value) == s
  {
    var bits := StrToBits(s).value;
    var r := BitsToStr(bits);
    BitsToStrGroups(bits);
    assert |r| == |s|;
    forall i | 0 <= i < |s|
      ensures r[i] == s[i]
    {
      assert r[i] as int == s[i] as int;
    }
  }

  /** A list of whole groups, each below 128, is the encoding of its
      decoding */
  lemma DecodeEncode(b: seq<Bit>)
    requires |b| % 8 == 0
    requires forall i :: 0 <= i < |b| / 8 ==> BitsValue(Group(b, i)) < 128
    ensures StrToBits(BitsToStr(b)) == Success(b)
  {
    var n := |b| / 8;
    DecodedAscii(b);
    var bits := StrToBits(BitsToStr(b)).value;
    forall i | 0 <= i < n
      ensures Group(bits, i) == Group(b, i)
    {
      ReencodedGroup(b, BitsToStr(b), i);
    }
    OctetsEqual(bits, b, n);
  }

  /** Whole groups below 128 decode to ASCII text, one character per group */
  lemma DecodedAscii(b: seq<Bit>)
    requires |b| % 8 == 0
    requires forall i :: 0 <= i < |b| / 8 ==> BitsValue(Group(b, i)) < 128
    ensures |BitsToStr(b)| == |b| / 8 && AllAscii(BitsToStr(b))
  {
    var s := BitsToStr(b);
    BitsToStrGroups(b);
    forall i | 0 <= i < |s|
      ensures IsAscii(s[i])
    {
      assert s[i] as int == BitsValue(Group(b, i));
    }
  }

  /** Re-encoding s, the decoding of b, gives group i of b back */
  lemma ReencodedGroup(b: seq<Bit>, s: string, i: nat)
    requires s == BitsToStr(b) && AllAscii(s) && |s| == |b| / 8
    requires |b| % 8 == 0 && i < |b| / 8
    ensures StrToBits(s).Success? && |StrToBits(s).value| == |b|
    ensures Group(StrToBits(s).value, i) == Group(b, i)
  {
    BitsToStrGroups(b);
    var bits := StrToBits(s).value;
    assert BitsValue(Group(bits, i)) == s[i] as int == BitsValue(Group(b, i));
    SameValueGroups(Group(bits, i), Group(b, i));
  }

  /** Bit lists of equal length denote equal numbers only when they are equal */
  lemma SameValueGroups(g: seq<Bit>, h: seq<Bit>)
    requires |g| == |h| && BitsValue(g) == BitsValue(h)
    ensures g == h
  {
    ValueInjective(BitsToDigits(g), BitsToDigits(h));
    BitsDigitsRoundTrip(g);
    BitsDigitsRoundTrip(h);
  }

  /** 01000001 decodes to "A" (code point 65) */
  lemma DecodeLetterA()
    ensures BitsToStr([0, 1, 0, 0, 0, 0, 0, 1]) == "A"
  {
    var bits: seq<Bit> := [0, 1, 0, 0, 0, 0, 0, 1];
    var r := BitsToStr(bits);
    BitsToStrGroups(bits);
    assert |r| == 1;
    assert Group(bits, 0) == bits;
    assert BitsToDigits(bits) == "01000001";
    assert Value("01000001") == 65;
    assert r[0] as int == 65;
  }

  /** "A" encodes to 01000001 */
  lemma EncodeLetterA()
    ensures StrToBits("A") == Success([0, 1, 0, 0, 0, 0, 0, 1])
  {
    var bits: seq<Bit> := [0, 1, 0, 0, 0, 0, 0, 1];
    DecodeLetterA();
    assert Group(bits, 0) == bits;
    assert BitsToDigits(bits) == "01000001";
    DecodeEncode(bits);
  }

  /** A trailing group shorter than 8 bits is read as-is: 01000001 101 gives
      "A" followed by the character with code point 5 */
  lemma TrailingGroup()
    ensures BitsToStr([0, 1, 0, 0, 0, 0, 0, 1, 1, 0, 1]) == "A" + [5 as char]
  {
    var a: seq<Bit> := [0, 1, 0, 0, 0, 0, 0, 1];
    var tail: seq<Bit> := [1, 0, 1];
    assert a + tail == [0, 1, 0, 0, 0, 0, 0, 1, 1, 0, 1];
    BitsToStrAppend(a, tail);
    DecodeLetterA();
    var r := BitsToStr(tail);
    BitsToStrGroups(tail);
    assert |r| == 1 && Group(tail, 0) == tail;
    assert BitsToDigits(tail) == "101";
    assert Value("101") == 5;
    assert r == [5 as char];
  }
}

=== FILE: wrappers.dfy ===
/** The two outcome types of the model.

    Python signals a missing argument with `None` and a rejected input with
    an exception. The model makes both visible in the result type: an
    `Option` is an argument that may have been left out, a `Result` is either
    the computed value or the reason the source would have raised. Both
    carry the three members Dafny's `:-` operator needs, so a failure
    propagates the way an uncaught exception does.
 */
module Wrappers {

  datatype Option<+T> = None | Some(value: T) {

    predicate IsFailure() {
      this == None
    }

    function PropagateFailure<U>(): Option<U>
      requires this == None
    {
      None
    }

    function Extract(): T
      requires this != None
    {
      this.value
    }

    /** The carried value when there is one, otherwise the fallback */
    function GetOr(fallback: T): T {
      if this == None then fallback else this.value
    }
  }

  datatype Result<+T, +E> = Success(value: T) | Failure(error: E) {

    predicate IsFailure() {
      !Success?
    }

    function PropagateFailure<U>(): Result<U, E>
      requires !Success?
    {
      Failure(this.error)
    }

    function Extract(): T
      requires Success?
    {
      this.value
    }
  }
}
